=== FILE: README.md ===
# Rebalancing backtest engine — a Dafny model

This project models the backtest engine of a multi-asset portfolio simulator
(`portfolio_simulator.py`). It covers two parts:

- `simulate_trading`: one pass over an aligned price table. The state is a cash
  balance, per-symbol share holdings, per-symbol buy and sell counters, and a
  running fee total. At every scheduled row the engine rebalances each symbol to
  an equal dollar share of the current total value. It pays a proportional fee
  on every trade. A symbol is skipped when its price is missing or zero, and
  when its dollar gap is below 0.01. At every row the engine marks the portfolio
  to market and records `(timestamp, value)`. At the end it reports the first
  and last values, the percentage return, the counters and the total fees.
- `calculate_individual_asset_performance`: the buy-and-hold baseline for each
  asset. The capital goes in at the first price and comes out at the last. The
  fee rate is charged once on the capital and once on the gross terminal value.

Every value is a Dafny `real`. A missing (NaN) price is `Price.Missing`.

Modules, one per component:

| file | module | what it holds |
|---|---|---|
| wrappers.dfy | `Wrappers` | `Option`, `Result` |
| prices.dfy | `Prices` | the price table, its well-formedness, the held-value sum |
| portfolio.dfy | `Portfolio` | the run's state, its initial value, its valuation |
| rebalance.dfy | `Rebalance` | one symbol's trade and one row's rebalance, with their accounting |
| schedule.dfy | `Schedule` | which rows rebalance |
| simulator.dfy | `Simulator` | the walk as a fold over rows, the history, the report |
| engine.dfy | `Engine` | the same walk as nested loops, proved equal to the fold |
| buy_and_hold.dfy | `BuyAndHold` | the per-asset baseline |
| scenarios.dfy | `Scenarios` | a worked two-asset run, and a one-asset run compared with the baseline |

Inputs that come from outside the engine are parameters:

- The price table is already aligned. Every cell holds a price, timestamps
  strictly increase, and each column belongs to a distinct symbol.
- The schedule grid (`grid`) stands for the regular timestamps that the
  date-range generator produced at the rebalance frequency.
- The fee rate and the initial capital are plain values.

## Model

| member | source | states |
|---|---|---|
| Portfolio.Initial | portfolio_simulator.py:38-44 | a run starts with all capital in cash, zero shares of every symbol, zero buys and sells, and no fees |
| Portfolio.InitialValue | portfolio_simulator.py:39-40 | before any trade the portfolio is worth exactly its starting capital, at any prices |
| Portfolio.Value | portfolio_simulator.py:52-54 | total value is cash plus Σ holdings×price; a portfolio holding no shares is worth exactly its cash; how one trade moves it is stated by `Prices.HeldValueUpdate` and `Rebalance.TradeCostsItsFee` |
| Prices.HeldValueUpdate | portfolio_simulator.py:52-54 | changing one symbol's holding changes the held value by that change times that symbol's price, and by nothing else |
| Rebalance.Execute | portfolio_simulator.py:74-90 | an executed trade: the position moves by the traded shares; cash plus that position's worth at the trade price falls by exactly the fee; the fee is the trade's dollar size times the rate; exactly one of the symbol's counters rises, the buy counter exactly when shares are bought; no other symbol changes |
| Rebalance.ExecuteClosesGap | portfolio_simulator.py:66-90 | trading the share delta that closes a dollar gap of at least 0.01 at a non-zero price leaves the holding worth exactly the target and charges cash the gap plus the fee |
| Rebalance.Trade | portfolio_simulator.py:59-90 | one symbol's rebalance: with a missing or zero price, or a dollar gap below 0.01, the whole state is unchanged; otherwise the holding ends worth exactly the target, cash pays the gap plus the fee, the fee is the gap's size times the rate, a buy is counted exactly when the holding grows (a sell otherwise), and no other symbol changes |
| Rebalance.TradeCostsItsFee | portfolio_simulator.py:74-90 | one executed or skipped trade lowers total value by exactly the fee it adds to the fee total |
| Rebalance.TradeLedger | portfolio_simulator.py:75-90 | one trade counts at most one buy or sell, and only for its own symbol; at a non-negative rate the fee total cannot fall; at a zero rate it does not change |
| Rebalance.RebalanceSymbols | portfolio_simulator.py:59-90 | the symbols are rebalanced one after the other in column order; its own contract states only that the state keeps one entry per symbol; its meaning is carried by `Rebalance.RebalanceFrame`, `Rebalance.RebalanceReachesTarget`, `Rebalance.RebalanceLedger` and `Rebalance.RebalanceCostsItsFees` |
| Rebalance.RebalanceRow | portfolio_simulator.py:50-90 | one rebalance toward total value / number of symbols; its own contract states only that the state keeps one entry per symbol; its meaning is carried by `Rebalance.RebalanceRowAccounting`, `Rebalance.SettledIsFixed` and `Rebalance.RebalanceIdempotentWithoutFees` |
| Rebalance.RebalanceFrame | portfolio_simulator.py:59-90 | while the first k symbols are rebalanced, the holdings and counters of later symbols are untouched |
| Rebalance.UntradableSymbolSkipped | portfolio_simulator.py:59-64 | a symbol with a missing or zero price leaves the rebalance with its holding and counters unchanged, and this raises no error |
| Rebalance.RebalanceReachesTarget | portfolio_simulator.py:66-90 | after the rebalance, every symbol with a usable price is within 0.01 of the target, whether it traded or was below the threshold |
| Rebalance.TradedSymbolsOnTarget | portfolio_simulator.py:66-88 | every symbol whose holding the rebalance changed is worth exactly the target at its price |
| Rebalance.RebalanceLedger | portfolio_simulator.py:74-90 | in one rebalance each symbol trades at most once; at a non-negative rate the counters and the fee total never fall; at a zero rate the fee total stays the same |
| Rebalance.RebalanceCostsItsFees | portfolio_simulator.py:74-90 | over any prefix of the symbols, total value falls by exactly the fees charged |
| Rebalance.RebalanceRowAccounting | portfolio_simulator.py:50-90 | one rebalance step: value after = value before minus the step's fees; so value is conserved at a zero rate, and cannot rise at a non-negative rate; every usable symbol ends within 0.01 of total/n, exactly at total/n if it traded |
| Rebalance.SettledIsFixed | portfolio_simulator.py:66-72 | if every symbol is already within 0.01 of the target or unpriced, the rebalance makes no trade and changes nothing |
| Rebalance.RebalanceIdempotentWithoutFees | portfolio_simulator.py:50-90 | at a zero fee rate, rebalancing a second time at the same prices gives the same state: no trade happens |
| Schedule.RebalancingDates | portfolio_simulator.py:25-36 | the rebalancing dates always hold the first timestamp; without rebalancing they are exactly that timestamp; with rebalancing every grid point present in the table is a date, and every other date is such a grid point |
| Schedule.ScheduledRows | portfolio_simulator.py:35-36 | the first row is always scheduled, and only rows of the table are; which other rows are scheduled is stated by `Schedule.ScheduledRowsCharacterized` |
| Schedule.ScheduledRowsCharacterized | portfolio_simulator.py:25-36 | with increasing timestamps, a row rebalances exactly when it is the first row, or when rebalancing is on and its timestamp is on the grid; without rebalancing only row 0 does |
| Simulator.Step | portfolio_simulator.py:46-50 | one row rebalances only when scheduled; its own contract states only that the state keeps one entry per symbol; its meaning is carried by `Rebalance.RebalanceRowAccounting` and `Simulator.QuietStretch` |
| Simulator.StateAfter | portfolio_simulator.py:38-50 | the state after the first k rows, starting from the initial state; its own contract states only that the state keeps one entry per symbol; its meaning is carried by `Simulator.QuietStretch`, `Simulator.WalkLedgerGrows` and `Simulator.TradesPerSymbolBounded` |
| Simulator.History | portfolio_simulator.py:103-104 | the history over k rows has exactly k entries, the j-th stamped with the j-th timestamp; the recorded values are stated by `Simulator.HistoryRecordsEveryRow` |
| Simulator.HistoryRecordsEveryRow | portfolio_simulator.py:46-104 | the history has exactly one entry per price row, in row order, and each entry is cash + Σ holdings×price after that row's possible rebalance |
| Simulator.QuietStretch | portfolio_simulator.py:46-50 | across rows that are not scheduled the state does not change: those rows only mark to market |
| Simulator.WalkLedgerGrows | portfolio_simulator.py:43-90 | at a non-negative rate the fee total and every trade counter are non-decreasing from any row to any later row |
| Simulator.TradesPerSymbolBounded | portfolio_simulator.py:82-89 | no symbol trades more often than the number of scheduled rows processed so far |
| Simulator.NoRebalancingTradesOnce | portfolio_simulator.py:31-36 | without rebalancing the state after the first row is the final state, and no symbol trades more than once |
| Simulator.TotalReturn | portfolio_simulator.py:124 | the percentage return r satisfies last = first × (1 + r/100); it is non-negative exactly when last ≥ first (for a positive first value); there is no finite return when first = 0 |
| Simulator.Summarize | portfolio_simulator.py:122-126 | the outcome carries the history, its first and last values, and the final state's buy and sell counters and fee total; the reported return r satisfies last = first × (1 + r/100), and there is none exactly when the first value is zero |
| Simulator.FirstRowAccounting | portfolio_simulator.py:35-90 | the value recorded at the first row is the capital minus the fees of the initial allocation |
| Simulator.RunReport | portfolio_simulator.py:117-126 | the report of a complete walk: one history entry per row with the row's timestamp; initial and final values are the first and last entries; the return relates them; no symbol's reported buys plus sells exceed the number of rows; at a zero rate the initial value equals the capital; at a non-negative rate the fees are non-negative and the initial value is at most the capital |
| Simulator.Simulate | portfolio_simulator.py:24-126 | a run fails exactly when the table has no rows (EmptyTable) or there are no symbols (NoSymbols); otherwise its outcome satisfies the report above, its history is the walk's history (so each entry is the row's value after its possible rebalance, by `Simulator.HistoryRecordsEveryRow`), and its buy and sell counters and fee total are those of the walk's final state |
| Simulator.RunWithoutRebalancing | portfolio_simulator.py:31-126 | a run without rebalancing succeeds on a non-empty table with symbols, reports at most one trade per symbol, and reports fees equal to the capital less the first recorded value |
| Engine.SimulateTrading | portfolio_simulator.py:24-126 | the loop over rows, with an inner loop over symbols sharing one cash balance, computes exactly the fold `Simulate` |
| BuyAndHold.HoldAsset | portfolio_simulator.py:133-144 | the return r is the price's own: pN = p0 × (1 + r/100), whatever the fee; final value = gross − rate×capital − rate×gross, with gross = capital × (1 + r/100); there is no finite result when p0 = 0 |
| BuyAndHold.HoldAssetFees | portfolio_simulator.py:141-144 | at a zero rate the baseline is capital × pN/p0; at a non-negative rate, non-negative capital and a non-negative price ratio pN/p0 it is never worth more than the fee-free baseline |
| BuyAndHold.IndividualPerformance | portfolio_simulator.py:128-156 | one baseline per column, in column order, built from the first and last row; an empty table is an error |
| Scenarios.BuyIntoEmptyPosition | portfolio_simulator.py:74-83 | allocating into an empty position at a positive price buys target/price shares, pays target plus its fee, and counts one buy |
| Scenarios.TwoAssetExample | portfolio_simulator.py:24-126 | A at 10, 10, 12 and B at 20, 20, 18, capital 100000, no fee, no rebalancing: row 0 buys 5000 A and 2500 B and leaves 0 cash; the run ends at 105000, a return of 5% |
| Scenarios.NoRebalancingFinalValue | portfolio_simulator.py:103-123 | without rebalancing the final value is the first row's allocation marked to the last row's prices |
| Scenarios.SingleAssetRunValue | portfolio_simulator.py:74-123 | a one-asset run without rebalancing ends at capital × pN/p0 minus the entry fee |
| Scenarios.SingleAssetSkipsExitFee | portfolio_simulator.py:141-144 | a one-asset run without rebalancing ends above the buy-and-hold baseline by exactly the baseline's exit fee, rate × capital × pN/p0 |

## Left out

- `main` and `parse_arguments` (portfolio_simulator.py:11-22, 158-329) are left
  out. They do argument parsing, CSV loading, date filtering, resampling,
  forward-filling and NaN-dropping alignment, printing, summary sorting and
  plotting. All of this is I/O or reporting.
- Line 262 is left out. There the summary recomputes each asset's fees from the
  already-net final value. That code belongs to the result aggregator.
- The frequency grid at portfolio_simulator.py:27-30 is an input (`grid`). It
  comes from a date-range library whose frequency grammar is not part of this
  model. So is that library's error for an unknown frequency.
- The console output at portfolio_simulator.py:62-63, 93-100 and 106-115 is
  left out. It only prints, and its percentages divide by a total that can be
  zero.
- Floating point is not modelled. Every quantity is an exact real: no rounding,
  no overflow, no infinities.
- NaN propagation is not modelled. In the source, a NaN price in a rebalance row
  makes that row's total NaN, and the NaN then spreads into cash and the fee
  total. So the walk requires a table with no missing cell (`Aligned`), which is
  what the NaN-dropping step at portfolio_simulator.py:195 delivers. The guard
  against a missing or zero price is still modelled symbol by symbol in
  `Rebalance.Trade` and `Rebalance.UntradableSymbolSkipped`. A zero price is
  allowed anywhere in the walk.
- Simulator.Simulate: a zero first value gives no return (`None`) rather than
  the float infinity or NaN that the division produces.
- BuyAndHold.HoldAsset: a zero first price gives no result (`None`) rather than
  the float infinity or NaN that the division produces.
- Symbols are addressed by column position, and their names must be distinct.
  If a name is repeated in the argument list, the source counts it twice in
  `len(symbols)` but keeps one dictionary entry for it. That case is not
  modelled.
- The DataFrame outputs are plain records. The history is a sequence of
  `Entry(time, value)`, and the trade counts are two sequences indexed by column.
- volatility_calculator.py, find_candles.py and utils/data_reader.py are not
  part of this model. They hold library-backed numerics, plotting and file
  reading.

=== FILE: buy_and_hold.dfy ===
/** The buy-and-hold baseline: all capital put into one asset at the first
    row and taken out at the last, paying the fee rate once on the way in
    and once on the way out. */
module BuyAndHold {
  import opened Wrappers
  import opened Prices
  import opened Simulator

  /** The baseline's report for one asset. */
  datatype Holding = Holding(totalReturn: real, finalValue: real)

  /** One row of the per-asset report; `result` is `None` when the first
      price is zero and the float division yields nothing finite. */
  datatype Performance = Performance(symbol: string, initialPrice: real, finalPrice: real, result: Option<Holding>)

  /** Buy and hold one asset. The percentage return is that of the price
      alone, whatever the fee. The exit fee is charged on the gross terminal
      value, before the fees are taken off it. */
  function HoldAsset(capital: real, rate: real, initialPrice: real, finalPrice: real): (r: Option<Holding>)
    ensures r.None? <==> initialPrice == 0.0
    ensures r.Some? ==> finalPrice == initialPrice * (1.0 + r.value.totalReturn / 100.0)
    ensures r.Some? ==>
      var gross := capital * (1.0 + r.value.totalReturn / 100.0);
      r.value.finalValue == gross - rate * capital - rate * gross
  {
    if initialPrice == 0.0 then None
    else
      var totalReturn := (finalPrice / initialPrice - 1.0) * 100.0;
      var finalValue := capital * (finalPrice / initialPrice);
      var totalFees := capital * rate + finalValue * rate;
      Some(Holding(totalReturn, finalValue - totalFees))
  }

  /** The two fees together never make the baseline worth more than the
      fee-free one, and at a zero rate the baseline is exactly the capital
      scaled by the price ratio. */
  lemma HoldAssetFees(capital: real, rate: real, initialPrice: real, finalPrice: real)
    requires initialPrice != 0.0
    ensures var r := HoldAsset(capital, rate, initialPrice, finalPrice).value;
      && (rate == 0.0 ==> r.finalValue * initialPrice == capital * finalPrice)
      && (rate >= 0.0 && capital >= 0.0 && finalPrice / initialPrice >= 0.0 ==>
            r.finalValue <= HoldAsset(capital, 0.0, initialPrice, finalPrice).value.finalValue)
  {
    var ratio := finalPrice / initialPrice;
    assert ratio * initialPrice == finalPrice;
    var r := HoldAsset(capital, rate, initialPrice, finalPrice).value;
    assert r.finalValue == capital * ratio - rate * capital - rate * (capital * ratio);
    if rate >= 0.0 && capital >= 0.0 && ratio >= 0.0 {
      assert rate * capital >= 0.0;
      assert rate * (capital * ratio) >= 0.0;
    }
  }

  /** The per-asset baseline for every column of the table, in column order. */
  function IndividualPerformance(t: PriceTable, capital: real, rate: real): (r: Result<seq<Performance>, SimError>)
    requires Aligned(t)
    ensures r.Failure? <==> |t.rows| == 0
    ensures r.Failure? ==> r.error == EmptyTable
    ensures r.Success? ==>
      && |r.value| == |t.symbols|
      && forall s :: 0 <= s < |t.symbols| ==>
           var first := t.rows[0][s].amount;
           var last := t.rows[|t.rows| - 1][s].amount;
           r.value[s] == Performance(t.symbols[s], first, last, HoldAsset(capital, rate, first, last))
  {
    if |t.rows| == 0 then Failure(EmptyTable)
    else
      var first := t.rows[0];
      var last := t.rows[|t.rows| - 1];
      Success(seq(|t.symbols|, s requires 0 <= s < |t.symbols| =>
        Performance(t.symbols[s], first[s].amount, last[s].amount,
                    HoldAsset(capital, rate, first[s].amount, last[s].amount))))
  }
}

=== FILE: engine.dfy ===
/** The backtest as a single loop over rows with an inner loop over symbols,
    threading one mutable state, the shape the walk takes in the program;
    proved to compute exactly the fold of the `Simulator` module. */
module Engine {
  import opened Wrappers
  import opened Prices
  import opened Portfolio
  import opened Rebalance
  import opened Schedule
  import opened Simulator

  method SimulateTrading(t: PriceTable, rebalance: bool, grid: set<int>, rate: real, capital: real)
    returns (r: Result<Outcome, SimError>)
    requires Aligned(t)
    ensures r == Simulate(t, rebalance, grid, rate, capital)
    ensures r.Success? ==> Reports(t, r.value, rate, capital)
  {
    if |t.rows| == 0 {
      return Failure(EmptyTable);
    }
    var n := |t.symbols|;
    if n == 0 {
      return Failure(NoSymbols);
    }
    var sched := ScheduledRows(t.times, rebalance, grid);
    var st := Initial(capital, n);
    var history: seq<Entry> := [];
    var k := 0;
    while k < |t.rows|
      invariant k <= |t.rows|
      invariant st == StateAfter(t, sched, rate, capital, k)
      invariant history == History(t, sched, rate, capital, k)
    {
      var row := t.rows[k];
      if k in sched {
        var target := Value(st, row) / n as real;
        ghost var start := st;
        var s := 0;
        while s < n
          invariant s <= n
          invariant st == RebalanceSymbols(start, row, target, rate, s)
        {
          st := Trade(st, s, row[s], target, rate);
          s := s + 1;
        }
      }
      history := history + [Entry(t.times[k], Value(st, row))];
      k := k + 1;
    }
    r := Success(Summarize(history, st));
  }
}

=== FILE: portfolio.dfy ===
/** The state one simulation run threads through the price table: cash,
    per-symbol holdings, the per-symbol trade ledger and the fee total. */
module Portfolio {
  import opened Prices

  datatype State = State(
    cash: real,
    holdings: seq<real>,
    buys: seq<nat>,
    sells: seq<nat>,
    fees: real)

  /** The state tracks exactly `n` symbols. */
  predicate Shaped(st: State, n: nat)
  {
    |st.holdings| == n && |st.buys| == n && |st.sells| == n
  }

  /** The state a run starts from: all capital in cash, no shares,
      no trades and no fees. */
  function Initial(capital: real, n: nat): (st: State)
    ensures Shaped(st, n)
    ensures st.cash == capital && st.fees == 0.0
    ensures forall s :: 0 <= s < n ==> st.holdings[s] == 0.0 && st.buys[s] == 0 && st.sells[s] == 0
  {
    State(capital, seq(n, _ => 0.0), seq(n, _ => 0), seq(n, _ => 0), 0.0)
  }

  /** Total portfolio value marked to the row's prices: cash plus the sum
      of holdings[s] * price[s]. */
  function Value(st: State, row: Row): (v: real)
    requires |st.holdings| == |row| && Complete(row)
    ensures (forall s :: 0 <= s < |row| ==> st.holdings[s] == 0.0) ==> v == st.cash
  {
    var held := HeldValue(st.holdings, row, |row|);
    assert (forall s :: 0 <= s < |row| ==> st.holdings[s] == 0.0) ==> held == 0.0 by {
      if forall s :: 0 <= s < |row| ==> st.holdings[s] == 0.0 {
        HeldValueOfNothing(st.holdings, row, |row|);
      }
    }
    st.cash + held
  }

  /** Before any trade a portfolio is worth its starting capital. */
  lemma InitialValue(capital: real, row: Row)
    requires Complete(row)
    ensures Value(Initial(capital, |row|), row) == capital
  {
    HeldValueOfNothing(Initial(capital, |row|).holdings, row, |row|);
  }

  /** The ledger of `b` extends that of `a`: no counter and not the fee
      total has gone down. */
  predicate LedgerGrows(a: State, b: State)
    requires Shaped(a, |a.holdings|) && Shaped(b, |a.holdings|)
  {
    && a.fees <= b.fees
    && forall s :: 0 <= s < |a.holdings| ==> a.buys[s] <= b.buys[s] && a.sells[s] <= b.sells[s]
  }
}

=== FILE: prices.dfy ===
/** The aligned price table the simulator walks: one row per timestamp,
    one column per symbol, all columns addressed by position. */
module Prices {

  /** One cell of the table. `Missing` stands for a NaN close price. */
  datatype Price = Missing | Quote(amount: real)

  /** The prices of every tracked symbol at one timestamp, in symbol order. */
  type Row = seq<Price>

  datatype PriceTable = PriceTable(symbols: seq<string>, times: seq<int>, rows: seq<Row>)

  /** A price the rebalancer is willing to trade at: present and not exactly zero. */
  predicate Tradable(p: Price)
  {
    p.Quote? && p.amount != 0.0
  }

  /** Every symbol has a price in this row. */
  predicate Complete(row: Row)
  {
    forall s :: 0 <= s < |row| ==> row[s].Quote?
  }

  predicate StrictlyIncreasing(ts: seq<int>)
  {
    forall i, j :: 0 <= i < j < |ts| ==> ts[i] < ts[j]
  }

  predicate DistinctSymbols(symbols: seq<string>)
  {
    forall i, j :: 0 <= i < j < |symbols| ==> symbols[i] != symbols[j]
  }

  /** The shape of a price table: one timestamp per row, timestamps in
      increasing order, one column per (distinct) symbol. */
  predicate WellFormed(t: PriceTable)
  {
    && |t.times| == |t.rows|
    && StrictlyIncreasing(t.times)
    && DistinctSymbols(t.symbols)
    && (forall r :: 0 <= r < |t.rows| ==> |t.rows[r]| == |t.symbols|)
  }

  /** A well-formed table in which no cell is missing, as left behind by
      dropping every row with a NaN before the simulation starts. */
  predicate Aligned(t: PriceTable)
  {
    WellFormed(t) && forall r :: 0 <= r < |t.rows| ==> Complete(t.rows[r])
  }

  /** Dollar value of the first `k` holdings at the row's prices:
      the sum of holdings[s] * price[s] for s < k. */
  function HeldValue(holdings: seq<real>, row: Row, k: nat): real
    requires k <= |holdings| == |row| && Complete(row)
  {
    if k == 0 then 0.0 else HeldValue(holdings, row, k - 1) + holdings[k - 1] * row[k - 1].amount
  }

  /** Changing one holding changes the held value by exactly that holding's
      change times its price, and only when it is among the first `k`. */
  lemma {:induction false} HeldValueUpdate(holdings: seq<real>, row: Row, k: nat, s: nat, x: real)
    requires k <= |holdings| == |row| && Complete(row) && s < |holdings|
    ensures HeldValue(holdings[s := x], row, k)
         == HeldValue(holdings, row, k) + (if s < k then (x - holdings[s]) * row[s].amount else 0.0)
  {
    if k > 0 {
      HeldValueUpdate(holdings, row, k - 1, s, x);
    }
  }

  /** Holding nothing is worth nothing at any prices. */
  lemma {:induction false} HeldValueOfNothing(holdings: seq<real>, row: Row, k: nat)
    requires k <= |holdings| == |row| && Complete(row)
    requires forall s :: 0 <= s < |holdings| ==> holdings[s] == 0.0
    ensures HeldValue(holdings, row, k) == 0.0
  {
    if k > 0 {
      HeldValueOfNothing(holdings, row, k - 1);
    }
  }
}

=== FILE: rebalance.dfy ===
/** One rebalance at one timestamp: every symbol is moved to an equal
    dollar share of the portfolio, one symbol after the other, each trade
    paid from (or into) the shared cash balance and charged a proportional fee. */
module Rebalance {
  import opened Prices
  import opened Portfolio

  /** Dollar deviations strictly below this are not worth a trade. */
  const Materiality: real := 0.01

  function Abs(x: real): real
  {
    if x < 0.0 then -x else x
  }

  /** The dollar amount that would move the holding of symbol `s` to `target`. */
  function Gap(st: State, s: nat, p: real, target: real): real
    requires s < |st.holdings|
  {
    target - st.holdings[s] * p
  }

  /** Symbol `s` may be left alone at this price: its price is unusable, or
      its holding is already within the materiality threshold of `target`. */
  predicate Settled(st: State, s: nat, p: Price, target: real)
    requires s < |st.holdings|
  {
    !Tradable(p) || Abs(Gap(st, s, p.amount, target)) < Materiality
  }

  /** `r` is `st` after one executed trade of symbol `s` at price `p`:
      the holding now is worth exactly `target`, cash paid for (or received
      from) the shares and the fee, the fee is the trade's dollar size times
      the rate, the trade is a buy exactly when the holding grew, and no other
      symbol is touched. */
  predicate Executed(st: State, r: State, s: nat, p: real, target: real, rate: real)
    requires Shaped(st, |st.holdings|) && Shaped(r, |st.holdings|) && s < |st.holdings|
  {
    && r.holdings[s] * p == target
    && r.fees == st.fees + Abs(Gap(st, s, p, target)) * rate
    && r.cash == st.cash - Gap(st, s, p, target) - (r.fees - st.fees)
    && r.holdings[s] != st.holdings[s]
    && (if r.holdings[s] > st.holdings[s]
        then r.buys[s] == st.buys[s] + 1 && r.sells[s] == st.sells[s]
        else r.sells[s] == st.sells[s] + 1 && r.buys[s] == st.buys[s])
    && (forall j :: 0 <= j < |st.holdings| && j != s ==>
          r.holdings[j] == st.holdings[j] && r.buys[j] == st.buys[j] && r.sells[j] == st.sells[j])
  }

  /** Buying `delta / price` shares adds exactly `delta` dollars of value. */
  lemma SharesAtPrice(held: real, delta: real, price: real)
    requires price != 0.0
    ensures (delta / price) * price == delta
    ensures (held + delta / price) * price == held * price + delta
    ensures delta != 0.0 ==> delta / price != 0.0
  {
  }

  /** An executed trade of `deltaShares` shares of symbol `s` at `price`:
      a buy when the share delta is positive, a sell otherwise, either way
      paying the fee on the trade's dollar size out of cash. The position
      moves by the traded shares, cash plus that position's worth at `price`
      falls by exactly the fee, exactly one of the symbol's two counters
      rises, and every other symbol is untouched. */
  function Execute(st: State, s: nat, deltaShares: real, price: real, rate: real): (r: State)
    requires Shaped(st, |st.holdings|) && s < |st.holdings|
    ensures Shaped(r, |st.holdings|)
    ensures r.holdings[s] - st.holdings[s] == deltaShares
    ensures r.fees - st.fees == Abs(deltaShares * price) * rate
    ensures r.cash + r.holdings[s] * price == st.cash + st.holdings[s] * price - (r.fees - st.fees)
    ensures r.buys[s] + r.sells[s] == st.buys[s] + st.sells[s] + 1
    ensures r.buys[s] >= st.buys[s] && r.sells[s] >= st.sells[s]
    ensures r.buys[s] > st.buys[s] <==> deltaShares > 0.0
    ensures forall j :: 0 <= j < |st.holdings| && j != s ==>
      r.holdings[j] == st.holdings[j] && r.buys[j] == st.buys[j] && r.sells[j] == st.sells[j]
  {
    var amount := deltaShares * price;
    var fee := Abs(amount) * rate;
    if deltaShares > 0.0 then
      st.(cash := st.cash - (amount + fee),
          holdings := st.holdings[s := st.holdings[s] + deltaShares],
          buys := st.buys[s := st.buys[s] + 1],
          fees := st.fees + fee)
    else
      st.(cash := st.cash + (-amount - fee),
          holdings := st.holdings[s := st.holdings[s] + deltaShares],
          sells := st.sells[s := st.sells[s] + 1],
          fees := st.fees + fee)
  }

  /** Trading the share delta that closes a material dollar gap at a non-zero
      price is an executed trade to exactly `target`. */
  lemma ExecuteClosesGap(st: State, s: nat, price: real, target: real, rate: real, r: State)
    requires Shaped(st, |st.holdings|) && s < |st.holdings| && price != 0.0
    requires Abs(Gap(st, s, price, target)) >= Materiality
    requires r == Execute(st, s, Gap(st, s, price, target) / price, price, rate)
    ensures Executed(st, r, s, price, target, rate)
  {
  }

  /** The rebalance of one symbol toward a dollar `target`: skipped at an
      unusable price or below the materiality threshold, otherwise the share
      delta that closes the dollar gap is traded. */
  function Trade(st: State, s: nat, p: Price, target: real, rate: real): (r: State)
    requires Shaped(st, |st.holdings|) && s < |st.holdings|
    ensures Shaped(r, |st.holdings|)
    ensures Settled(st, s, p, target) ==> r == st
    ensures !Settled(st, s, p, target) ==> Executed(st, r, s, p.amount, target, rate)
  {
    if !Tradable(p) then st
    else
      var price := p.amount;
      var currentValue := st.holdings[s] * price;
      var deltaValue := target - currentValue;
      var deltaShares := deltaValue / price;
      if Abs(deltaValue) < Materiality then st
      else
        assert deltaValue == Gap(st, s, price, target);
        var r := Execute(st, s, deltaShares, price, rate);
        ExecuteClosesGap(st, s, price, target, rate, r);
        r
  }

  /** Symbols 0 .. k-1 rebalanced toward `target`, in symbol order. */
  function RebalanceSymbols(st: State, row: Row, target: real, rate: real, k: nat): (r: State)
    requires Shaped(st, |row|) && k <= |row|
    ensures Shaped(r, |row|)
  {
    if k == 0 then st
    else Trade(RebalanceSymbols(st, row, target, rate, k - 1), k - 1, row[k - 1], target, rate)
  }

  /** The full rebalance step at a scheduled row: the target of every symbol
      is the current total value divided by the number of symbols. */
  function RebalanceRow(st: State, row: Row, rate: real): (r: State)
    requires Shaped(st, |row|) && |row| > 0 && Complete(row)
    ensures Shaped(r, |row|)
  {
    RebalanceSymbols(st, row, Value(st, row) / |row| as real, rate, |row|)
  }

  /** One trade changes total value by exactly minus its fee. */
  lemma TradeCostsItsFee(st: State, s: nat, row: Row, target: real, rate: real)
    requires Shaped(st, |row|) && s < |row| && Complete(row)
    ensures Value(Trade(st, s, row[s], target, rate), row)
         == Value(st, row) - (Trade(st, s, row[s], target, rate).fees - st.fees)
  {
    var r := Trade(st, s, row[s], target, rate);
    if !Settled(st, s, row[s], target) {
      assert r.holdings == st.holdings[s := r.holdings[s]];
      HeldValueUpdate(st.holdings, row, |row|, s, r.holdings[s]);
    }
  }

  /** Symbols from `k` on are not touched by rebalancing the first `k`. */
  lemma {:induction false} RebalanceFrame(st: State, row: Row, target: real, rate: real, k: nat)
    requires Shaped(st, |row|) && k <= |row|
    ensures var r := RebalanceSymbols(st, row, target, rate, k);
      forall j :: k <= j < |row| ==>
        r.holdings[j] == st.holdings[j] && r.buys[j] == st.buys[j] && r.sells[j] == st.sells[j]
  {
    if k > 0 {
      RebalanceFrame(st, row, target, rate, k - 1);
    }
  }

  /** A symbol with a missing or zero price is skipped: its holding and
      its counters come out of the rebalance unchanged. */
  lemma {:induction false} UntradableSymbolSkipped(st: State, row: Row, target: real, rate: real, k: nat, j: nat)
    requires Shaped(st, |row|) && k <= |row| && j < |row| && !Tradable(row[j])
    ensures var r := RebalanceSymbols(st, row, target, rate, k);
      r.holdings[j] == st.holdings[j] && r.buys[j] == st.buys[j] && r.sells[j] == st.sells[j]
  {
    if k > 0 {
      UntradableSymbolSkipped(st, row, target, rate, k - 1, j);
    }
  }

  /** A trade leaves its own symbol settled at the target. */
  lemma TradeSettles(st: State, s: nat, p: Price, target: real, rate: real)
    requires Shaped(st, |st.holdings|) && s < |st.holdings|
    ensures Settled(Trade(st, s, p, target, rate), s, p, target)
  {
    var r := Trade(st, s, p, target, rate);
    if !Settled(st, s, p, target) {
      assert r.holdings[s] * p.amount == target;
    }
  }

  /** A trade of one symbol does not unsettle another. */
  lemma TradeKeepsOthersSettled(st: State, s: nat, p: Price, target: real, rate: real, j: nat, q: Price)
    requires Shaped(st, |st.holdings|) && s < |st.holdings| && j < |st.holdings| && j != s
    requires Settled(st, j, q, target)
    ensures Settled(Trade(st, s, p, target, rate), j, q, target)
  {
    var r := Trade(st, s, p, target, rate);
    assert r.holdings[j] == st.holdings[j];
  }

  /** After the first `k` symbols are rebalanced, each of them with a usable
      price holds within the materiality threshold of the target. */
  lemma {:induction false} RebalanceReachesTarget(st: State, row: Row, target: real, rate: real, k: nat)
    requires Shaped(st, |row|) && k <= |row|
    ensures var r := RebalanceSymbols(st, row, target, rate, k);
      forall j :: 0 <= j < k ==> Settled(r, j, row[j], target)
  {
    if k > 0 {
      var prev := RebalanceSymbols(st, row, target, rate, k - 1);
      RebalanceReachesTarget(st, row, target, rate, k - 1);
      TradeSettles(prev, k - 1, row[k - 1], target, rate);
      forall j | 0 <= j < k - 1
        ensures Settled(Trade(prev, k - 1, row[k - 1], target, rate), j, row[j], target)
      {
        TradeKeepsOthersSettled(prev, k - 1, row[k - 1], target, rate, j, row[j]);
      }
    }
  }

  /** A holding of `shares` is worth exactly `target` at the price `p`. */
  predicate WorthTarget(shares: real, p: Price, target: real)
  {
    p.Quote? && shares * p.amount == target
  }

  /** A trade that changes its symbol's holding leaves it worth the target. */
  lemma TradeHitsTarget(st: State, s: nat, p: Price, target: real, rate: real)
    requires Shaped(st, |st.holdings|) && s < |st.holdings|
    ensures var r := Trade(st, s, p, target, rate);
      r.holdings[s] != st.holdings[s] ==> WorthTarget(r.holdings[s], p, target)
  {
  }

  /** Every symbol whose holding the rebalance changed now holds exactly
      the target's worth at its price. */
  lemma {:induction false} TradedSymbolsOnTarget(st: State, row: Row, target: real, rate: real, k: nat)
    requires Shaped(st, |row|) && k <= |row|
    ensures var r := RebalanceSymbols(st, row, target, rate, k);
      forall j :: 0 <= j < |row| && r.holdings[j] != st.holdings[j] ==> WorthTarget(r.holdings[j], row[j], target)
  {
    if k > 0 {
      var prev := RebalanceSymbols(st, row, target, rate, k - 1);
      var r := Trade(prev, k - 1, row[k - 1], target, rate);
      TradedSymbolsOnTarget(st, row, target, rate, k - 1);
      RebalanceFrame(st, row, target, rate, k - 1);
      TradeHitsTarget(prev, k - 1, row[k - 1], target, rate);
      forall j | 0 <= j < |row| && r.holdings[j] != st.holdings[j]
        ensures WorthTarget(r.holdings[j], row[j], target)
      {
        if j != k - 1 {
          assert r.holdings[j] == prev.holdings[j];
        }
      }
    }
  }

  /** One trade counts one buy or one sell of its own symbol and nothing
      else; with a non-negative rate it only adds to the fee total, and at a
      zero rate it adds nothing. */
  lemma TradeLedger(st: State, s: nat, p: Price, target: real, rate: real)
    requires Shaped(st, |st.holdings|) && s < |st.holdings|
    ensures var r := Trade(st, s, p, target, rate);
      && r.buys[s] + r.sells[s] <= st.buys[s] + st.sells[s] + 1
      && (forall j :: 0 <= j < |st.holdings| && j != s ==> r.buys[j] == st.buys[j] && r.sells[j] == st.sells[j])
      && (rate >= 0.0 ==> LedgerGrows(st, r))
      && (rate == 0.0 ==> r.fees == st.fees)
  {
    var r := Trade(st, s, p, target, rate);
    if !Settled(st, s, p, target) {
      assert Executed(st, r, s, p.amount, target, rate);
      if rate >= 0.0 {
        assert Abs(Gap(st, s, p.amount, target)) * rate >= 0.0;
      }
    }
  }

  /** Each symbol trades at most once per rebalance, and with a non-negative
      fee rate the fee total and every counter can only grow. */
  lemma {:induction false} RebalanceLedger(st: State, row: Row, target: real, rate: real, k: nat)
    requires Shaped(st, |row|) && k <= |row|
    ensures var r := RebalanceSymbols(st, row, target, rate, k);
      forall j :: 0 <= j < |row| ==> r.buys[j] + r.sells[j] <= st.buys[j] + st.sells[j] + 1
    ensures rate >= 0.0 ==> LedgerGrows(st, RebalanceSymbols(st, row, target, rate, k))
    ensures rate == 0.0 ==> RebalanceSymbols(st, row, target, rate, k).fees == st.fees
  {
    if k > 0 {
      var prev := RebalanceSymbols(st, row, target, rate, k - 1);
      var r := Trade(prev, k - 1, row[k - 1], target, rate);
      RebalanceLedger(st, row, target, rate, k - 1);
      RebalanceFrame(st, row, target, rate, k - 1);
      TradeLedger(prev, k - 1, row[k - 1], target, rate);
      forall j | 0 <= j < |row|
        ensures r.buys[j] + r.sells[j] <= st.buys[j] + st.sells[j] + 1
      {
        if j == k - 1 {
          assert prev.buys[j] == st.buys[j] && prev.sells[j] == st.sells[j];
        }
      }
    }
  }

  /** Over the rebalance of the first `k` symbols, total value falls by
      exactly the fees charged. */
  lemma {:induction false} RebalanceCostsItsFees(st: State, row: Row, target: real, rate: real, k: nat)
    requires Shaped(st, |row|) && k <= |row| && Complete(row)
    ensures var r := RebalanceSymbols(st, row, target, rate, k);
      Value(r, row) == Value(st, row) - (r.fees - st.fees)
  {
    if k > 0 {
      RebalanceCostsItsFees(st, row, target, rate, k - 1);
      TradeCostsItsFee(RebalanceSymbols(st, row, target, rate, k - 1), k - 1, row, target, rate);
    }
  }

  /** The rebalance step as a whole: value after is value before minus the
      step's fees, so value is conserved at a zero rate and can only fall at
      a non-negative one; every symbol with a usable price ends within the
      threshold of an equal share of the value before the step, exactly at
      it when it traded. */
  lemma RebalanceRowAccounting(st: State, row: Row, rate: real)
    requires Shaped(st, |row|) && |row| > 0 && Complete(row)
    ensures var r := RebalanceRow(st, row, rate);
      && Value(r, row) == Value(st, row) - (r.fees - st.fees)
      && (rate == 0.0 ==> Value(r, row) == Value(st, row))
      && (rate >= 0.0 ==> Value(r, row) <= Value(st, row) && LedgerGrows(st, r))
      && (forall j :: 0 <= j < |row| ==> Settled(r, j, row[j], Value(st, row) / |row| as real))
      && (forall j :: 0 <= j < |row| && r.holdings[j] != st.holdings[j] ==>
            WorthTarget(r.holdings[j], row[j], Value(st, row) / |row| as real))
  {
    var target := Value(st, row) / |row| as real;
    TradedSymbolsOnTarget(st, row, target, rate, |row|);
    RebalanceCostsItsFees(st, row, target, rate, |row|);
    RebalanceLedger(st, row, target, rate, |row|);
    RebalanceReachesTarget(st, row, target, rate, |row|);
  }

  /** Rebalancing a state in which every symbol is settled changes nothing. */
  lemma {:induction false} SettledIsFixed(st: State, row: Row, target: real, rate: real, k: nat)
    requires Shaped(st, |row|) && k <= |row|
    requires forall j :: 0 <= j < |row| ==> Settled(st, j, row[j], target)
    ensures RebalanceSymbols(st, row, target, rate, k) == st
  {
    if k > 0 {
      SettledIsFixed(st, row, target, rate, k - 1);
    }
  }

  /** Without fees, rebalancing again right away at the same prices makes no trade. */
  lemma RebalanceIdempotentWithoutFees(st: State, row: Row, r: State)
    requires Shaped(st, |row|) && |row| > 0 && Complete(row)
    requires r == RebalanceRow(st, row, 0.0)
    ensures RebalanceRow(r, row, 0.0) == r
  {
    RebalanceRowAccounting(st, row, 0.0);
    SettledIsFixed(r, row, Value(r, row) / |row| as real, 0.0, |row|);
  }
}

=== FILE: scenarios.dfy ===
/** Whole runs worked out end to end: the two-asset example of a run without
    rebalancing, and the relation between a one-asset run and the
    buy-and-hold baseline of the same asset. */
module Scenarios {
  import opened Wrappers
  import opened Prices
  import opened Portfolio
  import opened Rebalance
  import opened Schedule
  import opened Simulator
  import opened BuyAndHold

  /** Two assets, A at 10, 10, 12 and B at 20, 20, 18. */
  function ExampleTable(): (t: PriceTable)
    ensures Aligned(t)
  {
    PriceTable(["A", "B"], [0, 1, 2],
      [[Quote(10.0), Quote(20.0)], [Quote(10.0), Quote(20.0)], [Quote(12.0), Quote(18.0)]])
  }

  /** Allocating into an empty position at a positive price buys exactly
      the target's worth of shares and pays the fee on the target. */
  lemma BuyIntoEmptyPosition(st: State, s: nat, p: real, target: real, rate: real)
    requires Shaped(st, |st.holdings|) && s < |st.holdings| && st.holdings[s] == 0.0
    requires p > 0.0 && target >= Materiality
    ensures Trade(st, s, Quote(p), target, rate)
      == st.(cash := st.cash - target - target * rate,
             holdings := st.holdings[s := target / p],
             buys := st.buys[s := st.buys[s] + 1],
             fees := st.fees + target * rate)
  {
    var r := Trade(st, s, Quote(p), target, rate);
    assert Gap(st, s, p, target) == target;
    assert Executed(st, r, s, p, target, rate);
    assert r.holdings[s] == target / p;
  }

  /** The first trade of the example: 50000 buys 5000 shares of A at 10. */
  lemma ExampleBuysA(init: State)
    requires init == State(100000.0, [0.0, 0.0], [0, 0], [0, 0], 0.0)
    ensures Trade(init, 0, Quote(10.0), 50000.0, 0.0) == State(50000.0, [5000.0, 0.0], [1, 0], [0, 0], 0.0)
  {
    BuyIntoEmptyPosition(init, 0, 10.0, 50000.0, 0.0);
    assert init.holdings[0 := 50000.0 / 10.0] == [5000.0, 0.0];
  }

  /** The second trade of the example: 50000 buys 2500 shares of B at 20. */
  lemma ExampleBuysB(afterA: State)
    requires afterA == State(50000.0, [5000.0, 0.0], [1, 0], [0, 0], 0.0)
    ensures Trade(afterA, 1, Quote(20.0), 50000.0, 0.0) == State(0.0, [5000.0, 2500.0], [1, 1], [0, 0], 0.0)
  {
    BuyIntoEmptyPosition(afterA, 1, 20.0, 50000.0, 0.0);
    assert afterA.holdings[1 := 50000.0 / 20.0] == [5000.0, 2500.0];
  }

  /** The allocation at the first row of the example: a target of 50000
      each buys 5000 shares of A at 10, then 2500 shares of B at 20. */
  lemma ExampleAllocation(init: State, row: Row)
    requires init == State(100000.0, [0.0, 0.0], [0, 0], [0, 0], 0.0)
    requires row == [Quote(10.0), Quote(20.0)]
    ensures RebalanceRow(init, row, 0.0) == State(0.0, [5000.0, 2500.0], [1, 1], [0, 0], 0.0)
  {
    HeldValueOfNothing(init.holdings, row, 2);
    assert Value(init, row) == 100000.0;
    var target := Value(init, row) / 2.0;
    assert target == 50000.0;
    var afterA := State(50000.0, [5000.0, 0.0], [1, 0], [0, 0], 0.0);
    ExampleBuysA(init);
    ExampleBuysB(afterA);
    assert RebalanceSymbols(init, row, target, 0.0, 1) == afterA;
    assert RebalanceSymbols(init, row, target, 0.0, 2) == Trade(afterA, 1, Quote(20.0), 50000.0, 0.0);
  }

  /** Without fees and without rebalancing, 100000 of capital is split into
      5000 shares of A and 2500 shares of B with no cash left, and the run
      ends at 105000, a return of 5 percent. */
  lemma TwoAssetExample()
    ensures var t := ExampleTable();
      var sched := ScheduledRows(t.times, false, {});
      && StateAfter(t, sched, 0.0, 100000.0, 1) == State(0.0, [5000.0, 2500.0], [1, 1], [0, 0], 0.0)
      && Simulate(t, false, {}, 0.0, 100000.0).Success?
      && Simulate(t, false, {}, 0.0, 100000.0).value.initialValue == 100000.0
      && Simulate(t, false, {}, 0.0, 100000.0).value.finalValue == 105000.0
      && Simulate(t, false, {}, 0.0, 100000.0).value.totalReturn == Some(5.0)
  {
    var t := ExampleTable();
    var sched := ScheduledRows(t.times, false, {});
    ScheduledRowsCharacterized(t.times, false, {});
    var held := State(0.0, [5000.0, 2500.0], [1, 1], [0, 0], 0.0);
    assert Initial(100000.0, 2) == State(100000.0, [0.0, 0.0], [0, 0], [0, 0], 0.0);
    ExampleAllocation(Initial(100000.0, 2), t.rows[0]);
    assert StateAfter(t, sched, 0.0, 100000.0, 0) == Initial(100000.0, 2);
    assert 0 in sched;
    assert StateAfter(t, sched, 0.0, 100000.0, 1) == held;
    NoRebalancingTradesOnce(t, {}, 0.0, 100000.0);
    assert StateAfter(t, sched, 0.0, 100000.0, 3) == held;
    HistoryRecordsEveryRow(t, sched, 0.0, 100000.0, 3);
    var h := History(t, sched, 0.0, 100000.0, 3);
    assert h[0].value == Value(held, t.rows[0]) == 100000.0;
    assert h[2].value == Value(held, t.rows[2]) == 105000.0;
  }

  /** In a one-asset run the first row puts all the capital into the asset:
      capital / price shares, paid for with the capital plus its fee. */
  lemma SingleAssetAllocation(t: PriceTable, sched: set<nat>, rate: real, capital: real)
    requires Runnable(t) && |t.symbols| == 1 && |t.rows| > 0 && 0 in sched
    requires t.rows[0][0].amount > 0.0 && capital >= Materiality
    ensures StateAfter(t, sched, rate, capital, 1)
         == State(-(capital * rate), [capital / t.rows[0][0].amount], [1], [0], capital * rate)
  {
    var row := t.rows[0];
    var p0 := row[0].amount;
    var init := Initial(capital, 1);
    assert init == State(capital, [0.0], [0], [0], 0.0);
    InitialValue(capital, row);
    assert Value(init, row) / 1 as real == capital;
    BuyIntoEmptyPosition(init, 0, p0, capital, rate);
    assert row[0] == Quote(p0);
    assert [0.0][0 := capital / p0] == [capital / p0];
    assert StateAfter(t, sched, rate, capital, 0) == init;
    assert StateAfter(t, sched, rate, capital, 1) == RebalanceSymbols(init, row, capital, rate, 1);
    assert RebalanceSymbols(init, row, capital, rate, 1) == Trade(init, 0, Quote(p0), capital, rate);
    assert capital - capital - capital * rate == -(capital * rate);
  }

  /** Without rebalancing the final value of a run is the state after the
      first row marked to the last row's prices. */
  lemma NoRebalancingFinalValue(t: PriceTable, grid: set<int>, rate: real, capital: real)
    requires Runnable(t) && |t.rows| > 0
    ensures Simulate(t, false, grid, rate, capital).Success?
    ensures Simulate(t, false, grid, rate, capital).value.finalValue
         == Value(StateAfter(t, ScheduledRows(t.times, false, grid), rate, capital, 1), t.rows[|t.rows| - 1])
  {
    var n := |t.rows|;
    var sched := ScheduledRows(t.times, false, grid);
    NoRebalancingTradesOnce(t, grid, rate, capital);
    HistoryRecordsEveryRow(t, sched, rate, capital, n);
    assert History(t, sched, rate, capital, n)[n - 1].value
        == Value(StateAfter(t, sched, rate, capital, n), t.rows[n - 1]);
  }

  /** The bought position of a one-asset run, marked to a later price. */
  lemma BoughtPositionValue(capital: real, rate: real, p0: real, row: Row)
    requires p0 != 0.0 && |row| == 1 && Complete(row)
    ensures Value(State(-(capital * rate), [capital / p0], [1], [0], capital * rate), row)
         == capital * (row[0].amount / p0) - capital * rate
  {
    var pN := row[0].amount;
    assert HeldValue([capital / p0], row, 1) == (capital / p0) * pN;
    assert (capital / p0) * pN == capital * (pN / p0);
  }

  /** A one-asset run without rebalancing ends holding capital / p0 shares
      and minus the entry fee in cash, so it is worth the capital scaled by
      the price ratio less that fee. */
  lemma SingleAssetRunValue(t: PriceTable, grid: set<int>, rate: real, capital: real)
    requires Aligned(t) && |t.symbols| == 1 && |t.rows| > 0
    requires t.rows[0][0].amount > 0.0 && capital >= Materiality
    ensures Simulate(t, false, grid, rate, capital).Success?
    ensures var p0 := t.rows[0][0].amount;
      var pN := t.rows[|t.rows| - 1][0].amount;
      Simulate(t, false, grid, rate, capital).value.finalValue == capital * (pN / p0) - capital * rate
  {
    var sched := ScheduledRows(t.times, false, grid);
    ScheduledRowsCharacterized(t.times, false, grid);
    SingleAssetAllocation(t, sched, rate, capital);
    NoRebalancingFinalValue(t, grid, rate, capital);
    BoughtPositionValue(capital, rate, t.rows[0][0].amount, t.rows[|t.rows| - 1]);
  }

  /** The baseline's final value in terms of the gross terminal value
      capital * pN / p0. */
  lemma HoldAssetGross(capital: real, rate: real, p0: real, pN: real)
    requires p0 != 0.0
    ensures var gross := capital * (pN / p0);
      HoldAsset(capital, rate, p0, pN).value.finalValue == gross - rate * capital - rate * gross
  {
  }

  /** A one-asset run without rebalancing buys at the first row and holds:
      it pays the entry fee only, so it ends exactly the baseline's exit fee
      above the buy-and-hold value of the same asset. */
  lemma SingleAssetSkipsExitFee(t: PriceTable, grid: set<int>, rate: real, capital: real)
    requires Aligned(t) && |t.symbols| == 1 && |t.rows| > 0
    requires t.rows[0][0].amount > 0.0 && capital >= Materiality
    ensures Simulate(t, false, grid, rate, capital).Success?
    ensures var p0 := t.rows[0][0].amount;
      var pN := t.rows[|t.rows| - 1][0].amount;
      Simulate(t, false, grid, rate, capital).value.finalValue
        == HoldAsset(capital, rate, p0, pN).value.finalValue + rate * (capital * (pN / p0))
  {
    SingleAssetRunValue(t, grid, rate, capital);
    HoldAssetGross(capital, rate, t.rows[0][0].amount, t.rows[|t.rows| - 1][0].amount);
  }
}

=== FILE: schedule.dfy ===
/** Which rows of the table trigger a rebalance. The regular grid of
    timestamps at the rebalance frequency is an input: it is whatever the
    date-range generator produced between the table's first and last timestamp. */
module Schedule {

  /** The rebalancing dates: the grid intersected with the table's timestamps
      when rebalancing is on, and in every case the first timestamp, so that
      the initial allocation always happens. */
  function RebalancingDates(times: seq<int>, rebalance: bool, grid: set<int>): (dates: set<int>)
    requires |times| > 0
    ensures times[0] in dates
    ensures !rebalance ==> dates == {times[0]}
    ensures forall d :: d in dates ==> d in times
    ensures forall d :: d in dates && d != times[0] ==> d in grid
    ensures rebalance ==> forall d :: d in grid && d in times ==> d in dates
  {
    {times[0]} + (if rebalance then set d | d in grid && d in times else {})
  }

  /** The rows whose timestamp is a rebalancing date. */
  function ScheduledRows(times: seq<int>, rebalance: bool, grid: set<int>): (rows: set<nat>)
    requires |times| > 0
    ensures 0 in rows
    ensures forall i :: i in rows ==> i < |times|
  {
    set i: nat | i < |times| && times[i] in RebalancingDates(times, rebalance, grid)
  }

  /** With distinct increasing timestamps a row is scheduled exactly when it
      is the first row or, with rebalancing on, its timestamp is on the grid;
      so without rebalancing only the first row is scheduled. */
  lemma ScheduledRowsCharacterized(times: seq<int>, rebalance: bool, grid: set<int>)
    requires |times| > 0
    requires forall i, j :: 0 <= i < j < |times| ==> times[i] < times[j]
    ensures forall i :: 0 <= i < |times| ==>
      (i in ScheduledRows(times, rebalance, grid) <==> i == 0 || (rebalance && times[i] in grid))
    ensures !rebalance ==> ScheduledRows(times, rebalance, grid) == {0}
  {
    var rows := ScheduledRows(times, rebalance, grid);
    forall i | 0 <= i < |times|
      ensures i in rows <==> i == 0 || (rebalance && times[i] in grid)
    {
      if i != 0 {
        assert times[0] < times[i];
      }
    }
  }
}

=== FILE: simulator.dfy ===
/** The backtest walk: one pass over the rows of an aligned price table,
    rebalancing at scheduled rows and marking the portfolio to market at
    every row, followed by the summary of the run. */
module Simulator {
  import opened Wrappers
  import opened Prices
  import opened Portfolio
  import opened Rebalance
  import opened Schedule

  /** One point of the portfolio history. */
  datatype Entry = Entry(time: int, value: real)

  /** Why a run stops before producing a result: the table has no first row
      to allocate at, or there are no symbols to divide the value among. */
  datatype SimError = EmptyTable | NoSymbols

  /** What one run reports. `totalReturn` is `None` when the first value is
      zero, where the float division yields no finite percentage. */
  datatype Outcome = Outcome(
    history: seq<Entry>,
    initialValue: real,
    finalValue: real,
    totalReturn: Option<real>,
    buys: seq<nat>,
    sells: seq<nat>,
    fees: real)

  /** A table the walk can run over. */
  predicate Runnable(t: PriceTable)
  {
    Aligned(t) && |t.symbols| > 0
  }

  /** What one row does to the state: a rebalance when it is scheduled,
      nothing otherwise. */
  function Step(st: State, row: Row, scheduled: bool, rate: real): (r: State)
    requires Shaped(st, |row|) && |row| > 0 && Complete(row)
    ensures Shaped(r, |row|)
  {
    if scheduled then RebalanceRow(st, row, rate) else st
  }

  /** The state once the first `k` rows are processed. */
  function StateAfter(t: PriceTable, sched: set<nat>, rate: real, capital: real, k: nat): (st: State)
    requires Runnable(t) && k <= |t.rows|
    ensures Shaped(st, |t.symbols|)
  {
    if k == 0 then Initial(capital, |t.symbols|)
    else Step(StateAfter(t, sched, rate, capital, k - 1), t.rows[k - 1], k - 1 in sched, rate)
  }

  /** The portfolio history over the first `k` rows. */
  function History(t: PriceTable, sched: set<nat>, rate: real, capital: real, k: nat): (h: seq<Entry>)
    requires Runnable(t) && k <= |t.rows|
    ensures |h| == k
    ensures forall j :: 0 <= j < k ==> h[j].time == t.times[j]
  {
    if k == 0 then []
    else History(t, sched, rate, capital, k - 1)
         + [Entry(t.times[k - 1], Value(StateAfter(t, sched, rate, capital, k), t.rows[k - 1]))]
  }

  /** The history has one entry per row, in row order, and each entry is the
      portfolio marked to that row's prices after the row's possible rebalance. */
  lemma {:induction false} HistoryRecordsEveryRow(t: PriceTable, sched: set<nat>, rate: real, capital: real, k: nat)
    requires Runnable(t) && k <= |t.rows|
    ensures |History(t, sched, rate, capital, k)| == k
    ensures forall j :: 0 <= j < k ==>
      History(t, sched, rate, capital, k)[j]
        == Entry(t.times[j], Value(StateAfter(t, sched, rate, capital, j + 1), t.rows[j]))
  {
    if k > 0 {
      HistoryRecordsEveryRow(t, sched, rate, capital, k - 1);
    }
  }

  /** Rows that are not scheduled only mark to market: across a stretch of
      them the state does not change. */
  lemma {:induction false} QuietStretch(t: PriceTable, sched: set<nat>, rate: real, capital: real, a: nat, b: nat)
    requires Runnable(t) && a <= b <= |t.rows|
    requires forall i :: a <= i < b ==> i !in sched
    ensures StateAfter(t, sched, rate, capital, b) == StateAfter(t, sched, rate, capital, a)
  {
    if a < b {
      QuietStretch(t, sched, rate, capital, a, b - 1);
    }
  }

  /** With a non-negative fee rate the fee total and every trade counter are
      non-decreasing along the walk. */
  lemma {:induction false} WalkLedgerGrows(t: PriceTable, sched: set<nat>, rate: real, capital: real, j: nat, k: nat)
    requires Runnable(t) && j <= k <= |t.rows| && rate >= 0.0
    ensures LedgerGrows(StateAfter(t, sched, rate, capital, j), StateAfter(t, sched, rate, capital, k))
  {
    if j < k {
      WalkLedgerGrows(t, sched, rate, capital, j, k - 1);
      var prev := StateAfter(t, sched, rate, capital, k - 1);
      if k - 1 in sched {
        RebalanceRowAccounting(prev, t.rows[k - 1], rate);
      }
    }
  }

  /** How many of the first `k` rows are scheduled. */
  function ScheduledCount(sched: set<nat>, k: nat): nat
  {
    if k == 0 then 0 else ScheduledCount(sched, k - 1) + (if k - 1 in sched then 1 else 0)
  }

  /** No symbol has traded more than `bound` times. */
  predicate TradedAtMost(st: State, bound: nat)
    requires Shaped(st, |st.holdings|)
  {
    forall s :: 0 <= s < |st.holdings| ==> st.buys[s] + st.sells[s] <= bound
  }

  /** Each scheduled row trades every symbol at most once, so no symbol
      trades more often than there were scheduled rows. */
  lemma {:induction false} TradesPerSymbolBounded(t: PriceTable, sched: set<nat>, rate: real, capital: real, k: nat)
    requires Runnable(t) && k <= |t.rows|
    ensures TradedAtMost(StateAfter(t, sched, rate, capital, k), ScheduledCount(sched, k))
  {
    if k > 0 {
      TradesPerSymbolBounded(t, sched, rate, capital, k - 1);
      var prev := StateAfter(t, sched, rate, capital, k - 1);
      var bound := ScheduledCount(sched, k - 1);
      assert TradedAtMost(prev, bound);
      if k - 1 in sched {
        var row := t.rows[k - 1];
        var target := Value(prev, row) / |row| as real;
        var cur := RebalanceSymbols(prev, row, target, rate, |row|);
        assert StateAfter(t, sched, rate, capital, k) == cur;
        assert ScheduledCount(sched, k) == bound + 1;
        RebalanceLedger(prev, row, target, rate, |row|);
        forall s | 0 <= s < |cur.holdings|
          ensures cur.buys[s] + cur.sells[s] <= bound + 1
        {
          assert prev.buys[s] + prev.sells[s] <= bound;
        }
      } else {
        assert StateAfter(t, sched, rate, capital, k) == prev;
      }
    }
  }

  /** No more rows are scheduled than there are rows. */
  lemma {:induction false} ScheduledCountBounded(sched: set<nat>, k: nat)
    ensures ScheduledCount(sched, k) <= k
  {
    if k > 0 {
      ScheduledCountBounded(sched, k - 1);
    }
  }

  /** Without rebalancing only the initial allocation trades: from the first
      row on the state never changes, and no symbol trades more than once. */
  lemma NoRebalancingTradesOnce(t: PriceTable, grid: set<int>, rate: real, capital: real)
    requires Runnable(t) && |t.rows| > 0
    ensures var sched := ScheduledRows(t.times, false, grid);
      && (forall k :: 1 <= k <= |t.rows| ==>
            StateAfter(t, sched, rate, capital, k) == StateAfter(t, sched, rate, capital, 1))
      && TradedAtMost(StateAfter(t, sched, rate, capital, |t.rows|), 1)
  {
    var sched := ScheduledRows(t.times, false, grid);
    ScheduledRowsCharacterized(t.times, false, grid);
    forall k | 1 <= k <= |t.rows|
      ensures StateAfter(t, sched, rate, capital, k) == StateAfter(t, sched, rate, capital, 1)
    {
      QuietStretch(t, sched, rate, capital, 1, k);
    }
    TradesPerSymbolBounded(t, sched, rate, capital, 1);
    assert ScheduledCount(sched, 1) == 1;
  }

  /** Percentage return from the first to the last value, or `None` when the
      first value is zero. */
  function TotalReturn(first: real, last: real): (r: Option<real>)
    ensures r.None? <==> first == 0.0
    ensures r.Some? ==> last == first * (1.0 + r.value / 100.0)
    ensures r.Some? && first > 0.0 ==> (r.value >= 0.0 <==> last >= first)
  {
    if first == 0.0 then None else Some((last / first - 1.0) * 100.0)
  }

  /** The run's report from its history and final state. */
  function Summarize(history: seq<Entry>, st: State): (o: Outcome)
    requires |history| > 0
    ensures o.history == history
    ensures o.initialValue == history[0].value && o.finalValue == history[|history| - 1].value
    ensures o.buys == st.buys && o.sells == st.sells && o.fees == st.fees
    ensures o.totalReturn.None? <==> history[0].value == 0.0
    ensures o.totalReturn.Some? ==>
      history[|history| - 1].value == history[0].value * (1.0 + o.totalReturn.value / 100.0)
  {
    var first := history[0].value;
    var last := history[|history| - 1].value;
    Outcome(history, first, last, TotalReturn(first, last), st.buys, st.sells, st.fees)
  }

  /** The value after the allocation at the first row is the capital less
      the fees that allocation paid. */
  lemma FirstRowAccounting(t: PriceTable, sched: set<nat>, rate: real, capital: real)
    requires Runnable(t) && |t.rows| > 0 && 0 in sched
    ensures var st := StateAfter(t, sched, rate, capital, 1);
      Value(st, t.rows[0]) == capital - st.fees
  {
    var init := Initial(capital, |t.symbols|);
    InitialValue(capital, t.rows[0]);
    RebalanceRowAccounting(init, t.rows[0], rate);
  }

  /** What the report of a run over a runnable table promises. */
  predicate Reports(t: PriceTable, o: Outcome, rate: real, capital: real)
    requires |t.times| == |t.rows|
  {
    && |o.history| == |t.rows|
    && (forall j :: 0 <= j < |t.rows| ==> o.history[j].time == t.times[j])
    && |o.history| > 0
    && o.initialValue == o.history[0].value
    && o.finalValue == o.history[|o.history| - 1].value
    && o.totalReturn == TotalReturn(o.initialValue, o.finalValue)
    && |o.buys| == |t.symbols| && |o.sells| == |t.symbols|
    && (forall s :: 0 <= s < |t.symbols| ==> o.buys[s] + o.sells[s] <= |t.rows|)
    && (rate == 0.0 ==> o.initialValue == capital)
    && (rate >= 0.0 ==> o.fees >= 0.0 && o.initialValue <= capital)
  }

  /** The summary of a complete walk whose schedule holds the first row. */
  lemma RunReport(t: PriceTable, sched: set<nat>, rate: real, capital: real)
    requires Runnable(t) && |t.rows| > 0 && 0 in sched
    ensures Reports(t, Summarize(History(t, sched, rate, capital, |t.rows|),
                                 StateAfter(t, sched, rate, capital, |t.rows|)), rate, capital)
  {
    var n := |t.rows|;
    var history := History(t, sched, rate, capital, n);
    var st := StateAfter(t, sched, rate, capital, n);
    var o := Summarize(history, st);
    HistoryRecordsEveryRow(t, sched, rate, capital, n);
    var init := Initial(capital, |t.symbols|);
    var first := StateAfter(t, sched, rate, capital, 1);
    assert StateAfter(t, sched, rate, capital, 0) == init;
    assert first == Step(init, t.rows[0], true, rate);
    assert o.initialValue == Value(first, t.rows[0]);
    InitialValue(capital, t.rows[0]);
    RebalanceRowAccounting(init, t.rows[0], rate);
    TradesPerSymbolBounded(t, sched, rate, capital, n);
    ScheduledCountBounded(sched, n);
    if rate >= 0.0 {
      WalkLedgerGrows(t, sched, rate, capital, 1, n);
      assert LedgerGrows(first, st);
    }
  }

  /** One backtest run. */
  function Simulate(t: PriceTable, rebalance: bool, grid: set<int>, rate: real, capital: real): (r: Result<Outcome, SimError>)
    requires Aligned(t)
    ensures r.Failure? <==> |t.rows| == 0 || |t.symbols| == 0
    ensures r.Failure? ==> r.error == (if |t.rows| == 0 then EmptyTable else NoSymbols)
    ensures r.Success? ==> Reports(t, r.value, rate, capital)
    ensures r.Success? ==>
      r.value.history == History(t, ScheduledRows(t.times, rebalance, grid), rate, capital, |t.rows|)
    ensures r.Success? ==>
      var st := StateAfter(t, ScheduledRows(t.times, rebalance, grid), rate, capital, |t.rows|);
      r.value.buys == st.buys && r.value.sells == st.sells && r.value.fees == st.fees
  {
    if |t.rows| == 0 then Failure(EmptyTable)
    else if |t.symbols| == 0 then Failure(NoSymbols)
    else
      var sched := ScheduledRows(t.times, rebalance, grid);
      var n := |t.rows|;
      RunReport(t, sched, rate, capital);
      Success(Summarize(History(t, sched, rate, capital, n), StateAfter(t, sched, rate, capital, n)))
  }

  /** A run without rebalancing trades each symbol at most once, and all the
      fees it reports were paid by the initial allocation: the capital less
      the first recorded value. */
  lemma RunWithoutRebalancing(t: PriceTable, grid: set<int>, rate: real, capital: real)
    requires Aligned(t) && |t.rows| > 0 && |t.symbols| > 0
    ensures var r := Simulate(t, false, grid, rate, capital);
      && r.Success?
      && (forall s :: 0 <= s < |t.symbols| ==> r.value.buys[s] + r.value.sells[s] <= 1)
      && r.value.fees == capital - r.value.initialValue
  {
    var sched := ScheduledRows(t.times, false, grid);
    var n := |t.rows|;
    var o := Simulate(t, false, grid, rate, capital).value;
    NoRebalancingTradesOnce(t, grid, rate, capital);
    FirstRowAccounting(t, sched, rate, capital);
    HistoryRecordsEveryRow(t, sched, rate, capital, n);
    var first := StateAfter(t, sched, rate, capital, 1);
    assert StateAfter(t, sched, rate, capital, n) == first;
    assert o.initialValue == Value(first, t.rows[0]);
  }
}

=== FILE: wrappers.dfy ===
/** Failure-carrying result types shared by the simulator modules. */
module Wrappers {

  /** A value that may be absent; `None` stands for a non-finite float result. */
  datatype Option<+T> = None | Some(value: T)

  /** The outcome of an operation that can fail before producing anything. */
  datatype Result<+R, +E> = Success(value: R) | Failure(error: E)
}
